=== FILE: README.md ===
# EMLX native bridge: array-resource lifetime, dtype tables and the NIF-call bridge

This project models in Dafny the native core of EMLX, the binding between Elixir's Nx
tensors and the MLX array library, and proves properties of that model. The core has
three parts.

- **Array resources** (`array_resource.dfy`). Each MLX array handed to Erlang lives in one
  resource block. The block holds the array value, a reference count and a one-shot
  "deleted" flag. `ArrayP` borrows the block for one NIF call. The borrow is refused when
  the count is 0 and otherwise adds 1; its destructor subtracts 1. `deallocate` drops the
  user's reference once. The runtime's finalizer `free_array` destroys the array value when
  the resource is collected. The class invariant is
  `refcount == live valid borrows + (deleted ? 0 : 1)`. From it the model proves that the
  destructor's test `fetch_sub(1) == 0` never holds. The payload is therefore destroyed only
  by `free_array`. It also proves that once the count is 0, every later borrow is refused.
- **Dtype tables and shape arithmetic** (`dtypes.dfy`, `shapes.dfy`). These cover:
  - the name-to-dtype table and its reverse search, with round trips both ways;
  - the parallel size table;
  - `scalar_type`;
  - the loop that reads an Erlang list into a `std::vector<int>`;
  - `elem_count`;
  - the size check of `from_blob`.
- **The NIF-call bridge** (`nif_call.dfy`). A native thread sends `{Fun, Args, Request}` to
  an evaluator process and waits for the evaluator to store a reply through
  `nif_call_evaluated`. The model covers:
  - preparing a request, with staged rollback;
  - storing the reply;
  - the request destructor;
  - the one-shot `nif_call_onload`.

  Allocation outcomes are boolean inputs. The runtime objects (environments, mutexes and
  condition variables) are handles in a live set. Freeing a handle that is no longer live
  counts as a double release.

`wrappers.dfy` holds the Option/Result/Outcome types. `terms.dfy` holds the abstraction
of Erlang terms and the range of a C++ `int`.

Behaviour of the code worth noting:
- A second `nif_call_evaluated` on the same request is not rejected. It overwrites the
  stored value.
- A first argument that is not a request gives `badarg`.
- The payload is not destroyed when the count reaches zero. The destructor's test compares
  the value from before the decrement with 0. Under the invariant that branch is dead. The
  payload is destroyed only by the finalizer, when the resource is collected.
- Allocation failures are reported as `badarg`, `{error, resource_allocation_failed}` or
  the atom `enomem`, depending on the call site. There is no single out-of-memory error.
- A refused borrow reports "Array has been deallocated" when the count is 0.

## Model

| member | source | states |
|---|---|---|
| `Dtypes.Lookup` | c_src/emlx_nif.cpp:43-46 | `std::map::find`: no result exactly when no entry has the name; a result is an entry of the table |
| `Dtypes.StringToDtype` | c_src/emlx_nif.cpp:42-48 | a name gives its table entry's dtype exactly when the table lists it, never an unnamed dtype; otherwise the error "Unknown dtype: " followed by the name |
| `Dtypes.FirstKeyOf` | c_src/emlx_nif.cpp:51-56 | the reverse search finds nothing exactly when no entry holds the dtype; a found name is an entry holding it |
| `Dtypes.FindFirstKey` | c_src/emlx_nif.cpp:51-56 | the loop over the map's entries returns the name of the first entry holding the value, or nothing when no entry does |
| `Dtypes.DtypeToString` | c_src/emlx_nif.cpp:50-57 | the loop returns the first name, in the map's iteration order, whose dtype matches; it returns one exactly when the dtype is one of the thirteen listed, and null otherwise |
| `Dtypes.DtypeTableDistinct` | c_src/emlx_nif.cpp:10-24 | the thirteen names are distinct and so are the thirteen dtypes |
| `Dtypes.ListedIffNamed` | c_src/emlx_nif.cpp:10-24 | a dtype has a table entry exactly when it is not an unlisted one |
| `Dtypes.LookupEntry` | c_src/emlx_nif.cpp:43-46 | with distinct keys, looking up an entry's name gives that entry's dtype |
| `Dtypes.FirstKeyOfEntry` | c_src/emlx_nif.cpp:51-56 | with distinct dtypes, the reverse search for an entry's dtype gives that entry's name |
| `Dtypes.NameRoundTrip` | c_src/emlx_nif.cpp:42-57 | for every table name, `dtype2string(string2dtype(name))` is the name |
| `Dtypes.DtypeRoundTrip` | c_src/emlx_nif.cpp:42-57 | every one of the thirteen listed dtypes gets a name from `dtype2string`, and `string2dtype` of that name gives the dtype back |
| `Dtypes.ScalarType` | c_src/emlx_nif.cpp:182-191 | succeeds exactly for a listed dtype, with a name that maps back to it; otherwise the error "Could not determine array type." |
| `Dtypes.DtypeSizeTable` | c_src/emlx_nif.cpp:26-40 | `dtype_sizes` lists the same thirteen names as the dtype table, in the same order, each with the size of its own dtype |
| `Dtypes.LookupMapped` | c_src/emlx_nif.cpp:26-40 | looking up a name in a table derived entry by entry gives the derived value of the original lookup |
| `Dtypes.SizeOfName` | c_src/emlx_nif.cpp:479 | `dtype_sizes[name]` is the size of the dtype `string2dtype` gives for the name, and 0 for a name the table lacks |
| `Shapes.ParseIntList` | c_src/emlx_nif.cpp:198-213 | the list loop, also at lines 261-275 and 321-335: it succeeds exactly on a proper list of integers that fit in an `int`, and then returns those integers in order; otherwise `badarg` |
| `Shapes.AccumulateInt` | c_src/emlx_nif.cpp:471 | the `int` accumulation is 1 for the empty shape and 0 whenever some dimension is 0 |
| `Shapes.ElemCount` | c_src/emlx_nif.cpp:470-472 | `elem_count` as written: a `uint64_t` value, below 2^64, and 1 for the empty shape; `Shapes.AccumulateIntIsWrappedProduct` and `Shapes.ElemCountIsProduct` give its value |
| `Shapes.AccumulateIntIsWrappedProduct` | c_src/emlx_nif.cpp:471 | accumulating from the `int` literal 1 gives the product of the dimensions wrapped into 32 bits |
| `Shapes.ElemCountIsProduct` | c_src/emlx_nif.cpp:470-472 | as written, `elem_count` is the product of the dimensions whenever that product fits in an `int` |
| `Shapes.ElemCountOverflow` | c_src/emlx_nif.cpp:470-472 | for the shape [65536, 65536] (2^32 elements), `elem_count` as written is 0, while the 64-bit count is 2^32 |
| `Shapes.ElemCount64` | c_src/emlx_nif.cpp:470-472 | `elem_count` accumulated in `uint64_t`: a 64-bit value, 1 for the empty shape |
| `Shapes.MulMod64` | c_src/emlx_nif.cpp:471 | reducing both factors modulo 2^64 first leaves the product's residue unchanged |
| `Shapes.ElemCount64IsProductMod` | c_src/emlx_nif.cpp:470-472 | accumulating in `uint64_t` gives the product of the dimensions modulo 2^64 |
| `Shapes.ElemCount64IsProduct` | c_src/emlx_nif.cpp:470-472 | accumulated in `uint64_t`, the count is the product whenever that product fits in 64 bits |
| `Shapes.DivAtLeast` | c_src/emlx_nif.cpp:479 | for a positive element size, `size / itemsize >= count` holds exactly when `size >= count * itemsize` |
| `Shapes.BlobSizeCheck` | c_src/emlx_nif.cpp:479-480 | the check fails, with "Binary size is too small for the requested shape", exactly when the binary is shorter than count times element size |
| `Shapes.FromBlobCheck` | c_src/emlx_nif.cpp:479-480 | as written, the check passes exactly when the binary holds `elem_count(shape)` elements |
| `Shapes.FromBlobCheck64` | c_src/emlx_nif.cpp:479-480 | with the 64-bit count, the check passes exactly when the binary holds that many elements |
| `Shapes.FromBlobCheck64Sound` | c_src/emlx_nif.cpp:479-480 | with the 64-bit count, the check passes exactly when the binary holds every element of any shape whose element count fits in 64 bits |
| `Shapes.FromBlob` | c_src/emlx_nif.cpp:479-480 | when `dtype_sizes[name]` is non-zero, as the division needs, the name is a listed one, and the check passes exactly when the binary holds `elem_count(shape)` elements of that dtype; otherwise it fails with line 480's message |
| `Shapes.FromBlobCheckAcceptsEmptyBinary` | c_src/emlx_nif.cpp:470-480 | as written, an empty binary passes the check for a 65536 x 65536 shape of 4-byte elements; with the 64-bit count it fails |
| `ArrayResources.ArrayResource.constructor` | c_src/emlx_nif.cpp:148-150 | a newly initialised block holds the array, has count 1, the deleted flag clear and no borrows, and satisfies the invariant |
| `ArrayResources.ArrayResource.FreeArray` | c_src/emlx_nif.cpp:560-565 | the finalizer destroys the payload and changes nothing else |
| `ArrayResources.ArrayP.constructor` | c_src/emlx_nif.cpp:62-83 | a term that is not an array gives "Unable to get array param in NIF". A count of 0 gives "Array has been deallocated", an invalid borrow and an unchanged count. Otherwise the count rises by exactly 1 and the borrow is recorded. The invariant is kept in every case |
| `ArrayResources.ArrayP.Drop` | c_src/emlx_nif.cpp:85-92 | a valid borrow's destructor lowers the count by exactly 1 and keeps the invariant; the destroy branch at line 89 is never taken, so the payload is untouched |
| `ArrayResources.ArrayP.Deallocate` | c_src/emlx_nif.cpp:94-101 | returns true and lowers the count by 1 only when the flag was clear; later calls and calls through an invalid borrow return false and change nothing but the already-set flag |
| `ArrayResources.ArrayP.IsValid` | c_src/emlx_nif.cpp:107-109 | `is_valid` holds exactly when the borrow holds a resource, and then, under the invariant, the resource's count is at least 1, the payload is not destroyed and the borrow is counted, so `data()` may be handed out |
| `ArrayResources.ZeroCountIsFinal` | c_src/emlx_nif.cpp:72-77 | under the invariant, a count of 0 means the user's reference is dropped and no borrow is alive, so nothing can raise the count again |
| `ArrayResources.CreateArrayResource` | c_src/emlx_nif.cpp:138-156 | succeeds exactly when allocation does, with a fresh block at count 1 and the flag clear; otherwise `badarg` and no block |
| `ArrayResources.AllocateInline` | c_src/emlx_nif.cpp:219-236 | the block repeated in the other constructors (also at lines 281-298, 347-364, 405-421 and 516-533): as above, but failure gives `{error, resource_allocation_failed}` |
| `NifCall.CallbackNifRes.constructor` | c_src/nif_call.h:52-54 | a freshly allocated request has null env, mutex and condition variable and an unset result flag |
| `NifCall.Runtime.constructor` | c_src/nif_call.h:47-49 | before loading, the resource type is unset, `loaded` is 0 and nothing is held |
| `NifCall.Runtime.NifCallOnload` | c_src/nif_call.h:133-146 | once loaded, later calls return 0 without reopening the type. If opening fails, the call returns -1 and `loaded` stays 0. Otherwise it sets the type and `loaded` and returns 0 |
| `NifCall.Runtime.Acquire` | c_src/nif_call.h:56-69 | an env, mutex or condition variable is created exactly when allocation succeeds, as a fresh live handle |
| `NifCall.Runtime.Free` | c_src/nif_call.h:64-72 | freeing a live handle removes it; freeing one no longer live counts one double release |
| `NifCall.Runtime.DestructNifCallRes` | c_src/nif_call.h:117-131 | frees `cond`, `mtx` and `msg_env` in that order when non-null and nulls each. A request that owns three live handles releases exactly those. A second run frees nothing |
| `NifCall.Runtime.ReleaseUnshared` | c_src/nif_call.h:58-73 | releasing the only reference runs the destructor at once, and the block is no longer held |
| `NifCall.Runtime.PrepareNifCall` | c_src/nif_call.h:51-81 | succeeds exactly when all four allocations do, with three fresh live handles, the flag clear and the result `nil`. On failure nothing stays held, but a failed mutex causes one double release and a failed condition variable two. The request block is held on success and released on every failure path after it was allocated |
| `NifCall.Runtime.PrepareNifCallFixed` | c_src/nif_call.h:51-81 | the same, with the rolled-back fields nulled: on failure nothing stays held and nothing is freed twice; the request block is held on success and released on every failure path |
| `NifCall.Runtime.MakeNifCall` | c_src/nif_call.h:83-104 | a failed preparation returns `enomem` with nothing sent and nothing held, after the double releases of the as-written rollback: one when the mutex fails, two when the condition variable fails. Otherwise exactly one message `{Fun, Args, Request}` goes to the evaluator, and the request owns three newly held handles. Without a reply the call stays blocked. With replies it returns the last value stored and releases the request. The calling thread's reference to the request block is released on the `enomem` path and after a reply; only a blocked call keeps holding it |
| `NifCall.NifCallEvaluated` | c_src/nif_call.h:106-115 | a first argument that is not a request gives `badarg`. Otherwise the value is stored, the flag is set and `ok` is returned. A repeated call overwrites the value |

`Dtypes.Ordinal`, `Dtypes.KeyCode`, `Dtypes.TablePositions`, `Shapes.ToUint64`, `Shapes.WrapInt` and the
arithmetic lemmas without a row are proof helpers; they model no source operation of their own.
`ArrayResources.Lifecycle` and `NifCall.BridgeScenario` are client methods. They walk a
resource and a bridge through whole runs, using only the contracts above.

## Left out

- MLX operations: `zeros`, `ones`, `sum`, `astype`, `eval`, the array constructor from a
  binary, `nbytes`, `itemsize` and the copy in `to_blob`. These are calls into the array
  library, so payloads are opaque values.
- The `shape`, `to_blob` and `scalar_tensor` NIFs: they contain no logic of the core, and
  `scalar_tensor` takes a floating-point value.
- The mutex lock and the `enif_cond_wait`/`enif_cond_signal` loop of the bridge: they only
  block threads. A call proceeds once the result flag is set. A call whose evaluator never
  answers is `Blocked`, and the deadlock this can cause is a liveness issue, not modelled.
- Atomic memory ordering and races on the count and the flag: each atomic operation is one
  sequential step.
- Building and decoding Erlang terms (`enif_make_*`, `enif_get_*`, `enif_send`,
  `enif_make_copy`). Terms are values of a small datatype, and a copy is the same value.
  The `BINARY_PARAM`, `SHAPE_PARAM`, `TYPE_PARAM` and `PARAM` macros come from a header
  that is not part of this model.
- The byte size of each dtype: the array library supplies it, so it is a parameter. The
  `uint8_t` values of `dtype_sizes` are taken as sizes below 256, so no truncation is modelled.
- The failure of `enif_send` in `make_nif_call`: the code ignores it, and the model always
  delivers the message.
- `Dtypes.SizeOfName`: models the value 0 that `operator[]` yields for a missing name. It
  does not model the entry that `operator[]` inserts into the table.
- Collecting a request after `make_nif_call` releases it: the destructor exists as a method
  but is not scheduled, because collection depends on the evaluator's copies of the term.
- `Shapes.AccumulateInt`: signed `int` overflow is undefined behaviour in C++. The model
  assumes two's-complement wrap-around.
- `ArrayResources.ArrayResource.constructor`: at line 150 a default-constructed
  `std::atomic_flag` is assumed clear (C++20), as the blocks at lines 236 and after make
  explicit with `clear()`.
- `ArrayResources.ArrayResource.FreeArray`: requires that no borrow is alive and that the
  payload has not been destroyed. The runtime finalizes a resource only once, and only when
  no NIF call still refers to it.
- `Shapes.FromBlob`: requires `dtype_sizes[name]` to be non-zero, which leaves out type names
  the table does not list. For those, line 479 divides by 0, which is undefined behaviour.
  `TYPE_PARAM`, from a header that is not part of this model, is expected to refuse such names.
- Registration: the `CATCH` and `ARRAY` message formatting, the renaming macros, the NIF
  table, `open_resource_type`, `load` and `ERL_NIF_INIT`.

## Findings

| source | as written | input that shows it | evidently intended | confidence | as-written member | corrected member |
|---|---|---|---|---|---|---|
| c_src/emlx_nif.cpp:470-472 | `std::accumulate` starts from the `int` literal `1`, so the element count is multiplied in 32-bit `int` and only then widened to `uint64_t` | shape [65536, 65536] (2^32 elements): the count wraps to 0, and the size check at line 479 accepts an empty binary | accumulate in `uint64_t`, so the count is the product of the dimensions | medium, not executed (the overflow is undefined behaviour; wrap-around assumed) | `Shapes.ElemCountOverflow` | `Shapes.FromBlobCheck64Sound` |
| c_src/nif_call.h:62-75 | when the mutex or the condition variable cannot be created, the rollback frees `msg_env` (and `mtx`) without nulling them, then releases the resource, whose destructor frees every non-null field again | `enif_mutex_create` returns NULL (the env is freed twice), or `enif_cond_create` returns NULL (the env and the mutex are freed twice) | null each field after freeing it, or leave the freeing to the destructor | medium, not executed (assumes the runtime runs the destructor when the only reference is released) | `NifCall.Runtime.PrepareNifCall` | `NifCall.Runtime.PrepareNifCallFixed` |

`Shapes.FromBlobCheck64` is the corrected size check. `NifCall.Runtime.MakeNifCall` follows
the code and calls the as-written preparation, so its contract carries the same double
releases. With `PrepareNifCallFixed` in its place, the call would release nothing twice.

=== FILE: array_resource.dfy ===
/**
 * The lifetime of an array resource. Each resource is one block holding the library's
 * array value, a reference count and a "deleted" flag. `ArrayP` borrows a resource for
 * the duration of a NIF call, `deallocate` drops the user's reference once, and the
 * runtime's finalizer `free_array` destroys the array value when the resource is collected.
 * Atomic operations are taken as single sequential steps.
 */
module ArrayResources {
  import opened Wrappers
  import opened Terms

  /** An array value of the library; this model does not look into it. */
  datatype MlxArray = MlxArray(id: nat)

  const UnableToGetArray: string := "Unable to get array param in NIF"
  const ArrayDeallocated: string := "Array has been deallocated"

  /** One array resource block. */
  class ArrayResource {
    var payload: MlxArray
    /** The `std::atomic<int>` reference count. */
    var refcount: int
    /** The `std::atomic_flag` set by the first `deallocate`. */
    var deleted: bool
    /** Whether the array destructor `~array()` has run on the payload. */
    var destroyed: bool
    /** The `ArrayP` borrows of this resource that are currently alive and valid. */
    ghost var borrowers: set<ArrayP>

    /**
     * The count is one per live valid borrow, plus one for the user's reference until
     * `deallocate` drops it; a destroyed payload has no borrowers.
     */
    ghost predicate Valid()
      reads this
    {
      && refcount == |borrowers| + (if deleted then 0 else 1)
      && (destroyed ==> borrowers == {})
    }

    /** The in-place initialisation of a freshly allocated block: count 1, flag clear. */
    constructor (payload: MlxArray)
      ensures Valid()
      ensures this.payload == payload && refcount == 1 && !deleted && !destroyed && borrowers == {}
    {
      this.payload := payload;
      refcount := 1;
      deleted := false;
      destroyed := false;
      borrowers := {};
    }

    /**
     * `free_array`, the finalizer the runtime runs once when the resource is collected;
     * a collected resource is reachable from no NIF call, so no borrow is alive.
     */
    method FreeArray()
      requires Valid() && !destroyed && borrowers == {}
      modifies this
      ensures Valid() && destroyed
      ensures payload == old(payload) && refcount == old(refcount) && deleted == old(deleted)
      ensures borrowers == old(borrowers)
    {
      destroyed := true;
    }
  }

  /** A scoped borrow of an array resource. */
  class ArrayP {
    var ptr: ArrayResource?
    var err: Option<string>
    /** False once the destructor has run. */
    ghost var live: bool

    ghost predicate Valid()
      reads this, ptr
    {
      live && (ptr != null ==> ptr.Valid() && this in ptr.borrowers && !ptr.destroyed)
    }

    /**
     * `is_valid`: whether the borrow holds a resource. A valid borrow keeps its resource's
     * count at 1 or more and its payload undestroyed, so `data()` may be handed out.
     */
    function IsValid(): (b: bool)
      reads this, ptr
      ensures b <==> ptr != null
      ensures Valid() && b ==> ptr.refcount >= 1 && !ptr.destroyed && this in ptr.borrowers
    {
      assert Valid() && ptr != null ==> |ptr.borrowers| >= 1;
      ptr != null
    }

    /**
     * The constructor. `arg` is null when the term is not an array resource. A resource
     * whose count is 0 is refused; otherwise the count goes up by one.
     */
    constructor (arg: ArrayResource?)
      requires arg != null ==> arg.Valid() && !arg.destroyed
      modifies arg
      ensures Valid()
      ensures arg == null ==> ptr == null && err == Some(UnableToGetArray)
      ensures arg != null ==> arg.Valid() && arg.payload == old(arg.payload)
      ensures arg != null ==> arg.deleted == old(arg.deleted) && arg.destroyed == old(arg.destroyed)
      ensures arg != null && old(arg.refcount) == 0 ==>
        && ptr == null && err == Some(ArrayDeallocated)
        && arg.refcount == 0 && arg.borrowers == old(arg.borrowers)
      ensures arg != null && old(arg.refcount) != 0 ==>
        && ptr == arg && err == None
        && arg.refcount == old(arg.refcount) + 1 && arg.borrowers == old(arg.borrowers) + {this}
    {
      ptr := null;
      err := None;
      live := true;
      new;
      if arg == null {
        err := Some(UnableToGetArray);
        return;
      }
      ptr := arg;
      if ptr.refcount == 0 {
        ptr := null;
        err := Some(ArrayDeallocated);
        return;
      }
      if IsValid() {
        ptr.refcount := ptr.refcount + 1;
        ptr.borrowers := ptr.borrowers + {this};
      }
    }

    /**
     * The destructor. For a valid borrow the count goes down by one; the payload would be
     * destroyed only if `fetch_sub` returned 0, which a live borrow never sees.
     */
    method Drop()
      requires Valid()
      modifies this, ptr
      ensures !live && ptr == old(ptr) && err == old(err)
      ensures ptr != null ==>
        && ptr.Valid()
        && ptr.refcount == old(ptr.refcount) - 1
        && ptr.borrowers == old(ptr.borrowers) - {this}
        && ptr.deleted == old(ptr.deleted)
        && ptr.destroyed == old(ptr.destroyed)
        && ptr.payload == old(ptr.payload)
    {
      if IsValid() {
        var previous := ptr.refcount;
        ptr.refcount := ptr.refcount - 1;
        if previous == 0 {
          // `ptr->~array()`: a live borrow is counted in `previous`, so this is unreachable.
          assert false;
        }
        ptr.borrowers := ptr.borrowers - {this};
      }
      live := false;
    }

    /**
     * `deallocate`: the first call on a resource sets the flag and drops the user's
     * reference; every later call, and any call through an invalid borrow, changes nothing.
     */
    method Deallocate() returns (r: bool)
      requires Valid()
      modifies ptr
      ensures Valid()
      ensures r <==> ptr != null && !old(ptr.deleted)
      ensures ptr != null ==>
        && ptr.deleted
        && ptr.refcount == old(ptr.refcount) - (if r then 1 else 0)
        && ptr.borrowers == old(ptr.borrowers)
        && ptr.destroyed == old(ptr.destroyed)
        && ptr.payload == old(ptr.payload)
    {
      r := false;
      if IsValid() {
        var wasSet := ptr.deleted;
        ptr.deleted := true;
        if !wasSet {
          ptr.refcount := ptr.refcount - 1;
          r := true;
        }
      }
    }
  }

  /** A count of 0 means the user's reference is gone and no borrow is alive. */
  lemma ZeroCountIsFinal(res: ArrayResource)
    requires res.Valid() && res.refcount == 0
    ensures res.deleted && res.borrowers == {}
  {
  }

  /** The outcome of allocating an array resource. */
  datatype Allocation = Allocated(resource: ArrayResource) | AllocFailed(error: Term)

  /**
   * `create_array_resource`: allocate the block (which may fail, giving `badarg`) and
   * initialise it.
   */
  method CreateArrayResource(payload: MlxArray, allocOk: bool) returns (r: Allocation)
    ensures r.Allocated? <==> allocOk
    ensures r.Allocated? ==> fresh(r.resource) && r.resource.Valid()
    ensures r.Allocated? ==> r.resource.payload == payload && r.resource.refcount == 1
    ensures r.Allocated? ==> !r.resource.deleted && !r.resource.destroyed && r.resource.borrowers == {}
    ensures r.AllocFailed? ==> r.error == Badarg
  {
    if !allocOk {
      return AllocFailed(Badarg);
    }
    var resource := new ArrayResource(payload);
    return Allocated(resource);
  }

  /**
   * The allocation block repeated inside the `zeros`, `ones`, `sum`, `to_type` and
   * `scalar_tensor` NIFs: a failed allocation gives `{error, resource_allocation_failed}`.
   */
  method AllocateInline(payload: MlxArray, allocOk: bool) returns (r: Allocation)
    ensures r.Allocated? <==> allocOk
    ensures r.Allocated? ==> fresh(r.resource) && r.resource.Valid()
    ensures r.Allocated? ==> r.resource.payload == payload && r.resource.refcount == 1
    ensures r.Allocated? ==> !r.resource.deleted && !r.resource.destroyed && r.resource.borrowers == {}
    ensures r.AllocFailed? ==> r.error == ErrorTuple(Atom("resource_allocation_failed"))
  {
    if !allocOk {
      return AllocFailed(ErrorTuple(Atom("resource_allocation_failed")));
    }
    var resource := new ArrayResource(payload);
    return Allocated(resource);
  }

  /**
   * One resource through its whole life: two borrows, one released, `deallocate` through
   * the other (a second `deallocate` does nothing), the last borrow released, a later
   * borrow refused, and the finalizer destroying the payload.
   */
  method Lifecycle(payload: MlxArray)
  {
    var res := new ArrayResource(payload);
    var b1 := new ArrayP(res);
    var b2 := new ArrayP(res);
    assert res.refcount == 3;
    b1.Drop();
    assert res.refcount == 2 && b2.Valid();
    var first := b2.Deallocate();
    var second := b2.Deallocate();
    assert first && !second;
    assert res.refcount == 1 && res.deleted;
    b2.Drop();
    assert res.refcount == 0 && !res.destroyed;
    var b3 := new ArrayP(res);
    assert !b3.IsValid() && b3.err == Some(ArrayDeallocated);
    b3.Drop();
    res.FreeArray();
    assert res.destroyed;
  }
}

=== FILE: dtypes.dfy ===
/**
 * The element-type tables of the binding: the name -> dtype table (`dtypes`), its reverse
 * search (`dtype2string`), the parallel name -> byte-size table (`dtype_sizes`) and the
 * `scalar_type` NIF that reports an array's type name.
 */
module Dtypes {
  import opened Wrappers

  /**
   * Element types of the array library. The thirteen named ones have an entry in the
   * name table; `Other` stands for any further element type of the library, which has none.
   */
  datatype Dtype =
    | Bool | Uint8 | Uint16 | Uint32 | Uint64
    | Int8 | Int16 | Int32 | Int64
    | Float16 | Float32 | Bfloat16 | Complex64
    | Other(code: nat)

  /**
   * The name table `dtypes`, in the order a `std::map` keyed by `std::string` visits it:
   * ascending by name.
   */
  const DtypeTable: seq<(string, Dtype)> := [
    ("bfloat16", Bfloat16), ("bool", Bool), ("complex64", Complex64),
    ("float16", Float16), ("float32", Float32),
    ("int16", Int16), ("int32", Int32), ("int64", Int64), ("int8", Int8),
    ("uint16", Uint16), ("uint32", Uint32), ("uint64", Uint64), ("uint8", Uint8)
  ]

  /** No two entries of a table share a key, as in any `std::map`. */
  ghost predicate KeysDistinct<V>(table: seq<(string, V)>) {
    forall i, j :: 0 <= i < j < |table| ==> table[i].0 != table[j].0
  }

  /** No two entries of a table share a value. */
  ghost predicate ValuesDistinct<V>(table: seq<(string, V)>) {
    forall i, j :: 0 <= i < j < |table| ==> table[i].1 != table[j].1
  }

  /** `std::map::find`: the value stored under `name`, if any. */
  function Lookup<V(!new)>(table: seq<(string, V)>, name: string): (r: Option<V>)
    ensures r.None? <==> forall i :: 0 <= i < |table| ==> table[i].0 != name
    ensures r.Some? ==> (name, r.value) in table
    ensures r.Some? <==> exists v :: (name, v) in table
  {
    if table == [] then None
    else if table[0].0 == name then Some(table[0].1)
    else Lookup(table[1..], name)
  }

  /** The key of the first entry, in iteration order, whose value is `v`. */
  function FirstKeyOf<V(==)>(table: seq<(string, V)>, v: V): (r: Option<string>)
    ensures r.None? <==> forall i :: 0 <= i < |table| ==> table[i].1 != v
    ensures r.Some? ==> (r.value, v) in table
  {
    if table == [] then None
    else if table[0].1 == v then Some(table[0].0)
    else FirstKeyOf(table[1..], v)
  }

  /** With distinct keys, looking up the key of an entry yields that entry's value. */
  lemma {:induction false} LookupEntry<V(!new)>(table: seq<(string, V)>, i: nat)
    requires i < |table| && KeysDistinct(table)
    ensures Lookup(table, table[i].0) == Some(table[i].1)
  {
    if i > 0 {
      assert table[0].0 != table[i].0;
      LookupEntry(table[1..], i - 1);
    }
  }

  /** With distinct values, the reverse search for an entry's value yields that entry's key. */
  lemma {:induction false} FirstKeyOfEntry<V>(table: seq<(string, V)>, i: nat)
    requires i < |table| && ValuesDistinct(table)
    ensures FirstKeyOf(table, table[i].1) == Some(table[i].0)
  {
    if i > 0 {
      assert table[0].1 != table[i].1;
      FirstKeyOfEntry(table[1..], i - 1);
    }
  }

  /** The position of each named dtype in the table. */
  function Ordinal(d: Dtype): (k: int)
    ensures d.Other? <==> k < 0
  {
    match d
    case Bfloat16 => 0 case Bool => 1 case Complex64 => 2 case Float16 => 3 case Float32 => 4
    case Int16 => 5 case Int32 => 6 case Int64 => 7 case Int8 => 8
    case Uint16 => 9 case Uint32 => 10 case Uint64 => 11 case Uint8 => 12
    case Other(_) => -1
  }

  /**
   * The thirteen names differ already in their first and last characters; this gives
   * each name's position in the table from those two characters alone.
   */
  function KeyCode(name: string): int {
    if |name| == 0 then -1
    else match (name[0], name[|name| - 1])
      case ('b', '6') => 0 case ('b', 'l') => 1 case ('c', '4') => 2
      case ('f', '6') => 3 case ('f', '2') => 4
      case ('i', '6') => 5 case ('i', '2') => 6 case ('i', '4') => 7 case ('i', '8') => 8
      case ('u', '6') => 9 case ('u', '2') => 10 case ('u', '4') => 11 case ('u', '8') => 12
      case _ => -1
  }

  /** Each entry's dtype has the entry's position as its ordinal. */
  lemma OrdinalPositions()
    ensures forall i :: 0 <= i < |DtypeTable| ==> Ordinal(DtypeTable[i].1) == i
  {
    forall i | 0 <= i < |DtypeTable|
      ensures Ordinal(DtypeTable[i].1) == i
    {
    }
  }

  /** Each entry's name has the entry's position as its key code. */
  lemma KeyCodePositions()
    ensures forall i :: 0 <= i < |DtypeTable| ==> KeyCode(DtypeTable[i].0) == i
  {
    forall i | 0 <= i < |DtypeTable|
      ensures KeyCode(DtypeTable[i].0) == i
    {
    }
  }

  /** Each named dtype sits at its ordinal, and no entry holds an `Other` dtype. */
  lemma TablePositions()
    ensures forall i :: 0 <= i < |DtypeTable| ==> Ordinal(DtypeTable[i].1) == i
    ensures forall i :: 0 <= i < |DtypeTable| ==> KeyCode(DtypeTable[i].0) == i
    ensures forall d: Dtype :: !d.Other? ==> Ordinal(d) < |DtypeTable| && DtypeTable[Ordinal(d)].1 == d
  {
    OrdinalPositions();
    KeyCodePositions();
    forall d: Dtype | !d.Other?
      ensures Ordinal(d) < |DtypeTable| && DtypeTable[Ordinal(d)].1 == d
    {
      match d
      case Other(_) =>
      case _ =>
    }
  }

  lemma DtypeTableDistinct()
    ensures KeysDistinct(DtypeTable) && ValuesDistinct(DtypeTable)
  {
    TablePositions();
  }

  /** A dtype has an entry in the table exactly when it is one of the thirteen named ones. */
  lemma ListedIffNamed(d: Dtype)
    ensures (exists i :: 0 <= i < |DtypeTable| && DtypeTable[i].1 == d) <==> !d.Other?
  {
    TablePositions();
    if !d.Other? {
      assert DtypeTable[Ordinal(d)].1 == d;
    }
  }

  /** No entry of the table holds an `Other` dtype. */
  lemma NoOtherListed()
    ensures forall p :: p in DtypeTable ==> !p.1.Other?
  {
    OrdinalPositions();
  }

  /** `string2dtype`: the table entry for a name, or the "Unknown dtype" exception. */
  function StringToDtype(name: string): (r: Result<Dtype, string>)
    ensures r.Success? <==> exists d :: (name, d) in DtypeTable
    ensures r.Success? ==> (name, r.value) in DtypeTable && !r.value.Other?
    ensures r.Failure? ==> r.error == "Unknown dtype: " + name
  {
    NoOtherListed();
    match Lookup(DtypeTable, name)
    case Some(d) => Success(d)
    case None => Failure("Unknown dtype: " + name)
  }

  /** The scan of a table in iteration order for the first entry holding `v`. */
  method FindFirstKey<V(==)>(table: seq<(string, V)>, v: V) returns (r: Option<string>)
    ensures r == FirstKeyOf(table, v)
  {
    var i := 0;
    while i < |table|
      invariant 0 <= i <= |table|
      invariant FirstKeyOf(table, v) == FirstKeyOf(table[i..], v)
    {
      if table[i].1 == v {
        return Some(table[i].0);
      }
      assert table[i..][1..] == table[i + 1..];
      i := i + 1;
    }
    return None;
  }

  /** `dtype2string`: the first name, in iteration order, whose entry holds `d`. */
  method DtypeToString(d: Dtype) returns (r: Option<string>)
    ensures r == FirstKeyOf(DtypeTable, d)
    ensures r.Some? <==> !d.Other?
    ensures r.Some? ==> (r.value, d) in DtypeTable
  {
    r := FindFirstKey(DtypeTable, d);
    ListedIffNamed(d);
  }

  /** Every name of the table survives `dtype2string(string2dtype(name))`. */
  lemma NameRoundTrip(name: string)
    requires exists d :: (name, d) in DtypeTable
    ensures StringToDtype(name).Success?
    ensures FirstKeyOf(DtypeTable, StringToDtype(name).value) == Some(name)
  {
    DtypeTableDistinct();
    var i :| 0 <= i < |DtypeTable| && DtypeTable[i].0 == name;
    LookupEntry(DtypeTable, i);
    FirstKeyOfEntry(DtypeTable, i);
  }

  /** Every named dtype has a name, and survives `string2dtype(dtype2string(d))`. */
  lemma DtypeRoundTrip(d: Dtype)
    requires !d.Other?
    ensures FirstKeyOf(DtypeTable, d).Some?
    ensures StringToDtype(FirstKeyOf(DtypeTable, d).value) == Success(d)
  {
    DtypeTableDistinct();
    ListedIffNamed(d);
    var i :| 0 <= i < |DtypeTable| && DtypeTable[i].1 == d;
    FirstKeyOfEntry(DtypeTable, i);
    LookupEntry(DtypeTable, i);
  }

  /**
   * `scalar_type` after its array argument is borrowed: the atom naming the array's
   * element type, or an error when the table has no name for it.
   */
  method ScalarType(d: Dtype) returns (r: Result<string, string>)
    ensures r.Success? <==> !d.Other?
    ensures r.Success? ==> StringToDtype(r.value) == Success(d)
    ensures r.Failure? ==> r.error == "Could not determine array type."
  {
    var name := DtypeToString(d);
    if name.Some? {
      DtypeRoundTrip(d);
      r := Success(name.value);
    } else {
      r := Failure("Could not determine array type.");
    }
  }

  /**
   * The size table `dtype_sizes`, listing the same thirteen names; the byte size of each
   * element type is supplied by the array library and taken here as the parameter `itemSize`.
   */
  function DtypeSizeTable(itemSize: Dtype -> nat): (r: seq<(string, nat)>)
    ensures |r| == |DtypeTable|
    ensures forall i :: 0 <= i < |DtypeTable| ==> r[i] == (DtypeTable[i].0, itemSize(DtypeTable[i].1))
  {
    [
      ("bfloat16", itemSize(Bfloat16)), ("bool", itemSize(Bool)), ("complex64", itemSize(Complex64)),
      ("float16", itemSize(Float16)), ("float32", itemSize(Float32)),
      ("int16", itemSize(Int16)), ("int32", itemSize(Int32)), ("int64", itemSize(Int64)),
      ("int8", itemSize(Int8)),
      ("uint16", itemSize(Uint16)), ("uint32", itemSize(Uint32)), ("uint64", itemSize(Uint64)),
      ("uint8", itemSize(Uint8))
    ]
  }

  /** A table whose entries are those of `table` with `f` applied to each value. */
  lemma {:induction false} LookupMapped<U(!new), V(!new)>(table: seq<(string, U)>, mapped: seq<(string, V)>, f: U -> V, name: string)
    requires |mapped| == |table|
    requires forall i :: 0 <= i < |table| ==> mapped[i] == (table[i].0, f(table[i].1))
    ensures Lookup(mapped, name) == if Lookup(table, name).Some? then Some(f(Lookup(table, name).value)) else None
  {
    if table != [] && table[0].0 != name {
      LookupMapped(table[1..], mapped[1..], f, name);
    }
  }

  /**
   * `dtype_sizes[name]`: `std::map::operator[]` yields a value-initialised 0 for a name
   * the table lacks.
   */
  function SizeOfName(itemSize: Dtype -> nat, name: string): (n: nat)
    ensures StringToDtype(name).Success? ==> n == itemSize(StringToDtype(name).value)
    ensures StringToDtype(name).Failure? ==> n == 0
  {
    LookupMapped(DtypeTable, DtypeSizeTable(itemSize), itemSize, name);
    match Lookup(DtypeSizeTable(itemSize), name)
    case Some(n) => n
    case None => 0
  }
}

=== FILE: nif_call.dfy ===
/**
 * The NIF-call bridge: a native thread sends `{Fun, Args, Request}` to an evaluator process
 * and waits until the evaluator stores a result in the request through `nif_call_evaluated`.
 * Each request is a resource owning a message environment, a mutex and a condition variable.
 * The blocking wait is abstracted: the thread proceeds once the result flag is set.
 */
module NifCall {
  import opened Wrappers
  import opened Terms

  /** A runtime object the request owns: an `ErlNifEnv*`, `ErlNifMutex*` or `ErlNifCond*`. */
  datatype Handle = Handle(id: nat)

  datatype Pid = Pid(id: nat)

  const NilAtom: Term := Atom("nil")
  const EnomemAtom: Term := Atom("enomem")
  const OkAtom: Term := Atom("ok")

  /** The request resource `CallbackNifRes`; a null pointer field is `None`. */
  class CallbackNifRes {
    var msgEnv: Option<Handle>
    var mtx: Option<Handle>
    var cond: Option<Handle>
    var returnValue: Term
    var returnValueSet: bool
    /** The creating thread has released its reference. */
    ghost var released: bool

    /** A fresh resource block after `memset(res, 0, ...)`. */
    constructor ()
      ensures msgEnv == None && mtx == None && cond == None
      ensures returnValue == Opaque(0) && !returnValueSet && !released
    {
      msgEnv, mtx, cond := None, None, None;
      returnValue := Opaque(0);
      returnValueSet := false;
      released := false;
    }
  }

  /** The message `{Fun, Args, Request}` sent to the evaluator. */
  datatype Message = Message(to: Pid, fun: Term, args: Term, request: CallbackNifRes)

  /** What `make_nif_call` does: return a term, or stay blocked because no result arrives. */
  datatype CallOutcome = Returned(value: Term) | Blocked

  /**
   * Freeing the handle in a non-null field, given the live handles and the number of double
   * releases so far: a live handle stops being live, and freeing one that is no longer live
   * is one more double release. A null field frees nothing.
   */
  function FreeSlot(state: (set<Handle>, nat), slot: Option<Handle>): (set<Handle>, nat) {
    match slot
    case None => state
    case Some(h) => if h in state.0 then (state.0 - {h}, state.1) else (state.0, state.1 + 1)
  }

  /** The process-wide state of the bridge and of the runtime objects it uses. */
  class Runtime {
    /** The static `loaded` flag of `nif_call_onload`. */
    var loaded: bool
    /** Whether `CallbackNifRes::type` has been set. */
    var typeOpened: bool
    /** How many times `enif_open_resource_type` has been called. */
    ghost var typeOpenCalls: nat
    /** Handles acquired and not yet freed. */
    var live: set<Handle>
    var nextHandle: nat
    /** Frees of a handle that was no longer live. */
    var doubleFrees: nat
    /** Messages sent, oldest first. */
    var outbox: seq<Message>
    /** Request blocks allocated whose creating thread has not yet released its reference. */
    ghost var requests: set<CallbackNifRes>

    ghost predicate Valid()
      reads this
    {
      && (forall h :: h in live ==> h.id < nextHandle)
      && (loaded ==> typeOpened)
    }

    /** The three fields of `res` hold distinct live handles. */
    ghost predicate Owns(res: CallbackNifRes)
      reads this, res
    {
      && res.msgEnv.Some? && res.mtx.Some? && res.cond.Some?
      && res.msgEnv.value in live && res.mtx.value in live && res.cond.value in live
      && res.msgEnv.value != res.mtx.value && res.mtx.value != res.cond.value
      && res.msgEnv.value != res.cond.value
    }

    constructor ()
      ensures Valid()
      ensures !loaded && !typeOpened && typeOpenCalls == 0
      ensures live == {} && doubleFrees == 0 && outbox == [] && requests == {}
    {
      loaded, typeOpened := false, false;
      typeOpenCalls := 0;
      live, nextHandle, doubleFrees := {}, 0, 0;
      outbox := [];
      requests := {};
    }

    /** `nif_call_onload`: opens the resource type once; `openOk` is whether opening succeeds. */
    method NifCallOnload(openOk: bool) returns (rc: int)
      requires Valid()
      modifies this
      ensures Valid()
      ensures old(loaded) ==> rc == 0 && loaded && typeOpened == old(typeOpened) && typeOpenCalls == old(typeOpenCalls)
      ensures !old(loaded) ==> typeOpenCalls == old(typeOpenCalls) + 1
      ensures !old(loaded) && !openOk ==> rc == -1 && !loaded && typeOpened == old(typeOpened)
      ensures !old(loaded) && openOk ==> rc == 0 && loaded && typeOpened
      ensures live == old(live) && nextHandle == old(nextHandle)
      ensures doubleFrees == old(doubleFrees) && outbox == old(outbox) && requests == old(requests)
    {
      if loaded {
        return 0;
      }
      typeOpenCalls := typeOpenCalls + 1;
      if !openOk {
        return -1;
      }
      typeOpened := true;
      loaded := true;
      return 0;
    }

    /** `enif_alloc_env`, `enif_mutex_create` or `enif_cond_create`; `ok` is whether it succeeds. */
    method Acquire(ok: bool) returns (h: Option<Handle>)
      requires Valid()
      modifies this
      ensures Valid()
      ensures h.Some? <==> ok
      ensures h.Some? ==> h.value !in old(live) && live == old(live) + {h.value}
      ensures h.None? ==> live == old(live)
      ensures nextHandle >= old(nextHandle)
      ensures loaded == old(loaded) && typeOpened == old(typeOpened) && typeOpenCalls == old(typeOpenCalls)
      ensures doubleFrees == old(doubleFrees) && outbox == old(outbox) && requests == old(requests)
    {
      if !ok {
        return None;
      }
      h := Some(Handle(nextHandle));
      live := live + {h.value};
      nextHandle := nextHandle + 1;
    }

    /** `enif_free_env`, `enif_mutex_destroy` or `enif_cond_destroy`. */
    method Free(h: Handle)
      requires Valid()
      modifies this
      ensures Valid()
      ensures (live, doubleFrees) == FreeSlot((old(live), old(doubleFrees)), Some(h))
      ensures nextHandle == old(nextHandle)
      ensures loaded == old(loaded) && typeOpened == old(typeOpened) && typeOpenCalls == old(typeOpenCalls)
      ensures outbox == old(outbox) && requests == old(requests)
    {
      if h in live {
        live := live - {h};
      } else {
        doubleFrees := doubleFrees + 1;
      }
    }

    /**
     * `destruct_nif_call_res`: frees `cond`, `mtx` and `msg_env` when non-null and nulls
     * each, so a second run frees nothing.
     */
    method DestructNifCallRes(res: CallbackNifRes)
      requires Valid()
      modifies this, res
      ensures Valid()
      ensures res.cond == None && res.mtx == None && res.msgEnv == None
      ensures (live, doubleFrees) == FreeSlot(FreeSlot(FreeSlot((old(live), old(doubleFrees)), old(res.cond)), old(res.mtx)), old(res.msgEnv))
      ensures old(Owns(res)) ==>
        live == old(live) - {old(res.cond.value), old(res.mtx.value), old(res.msgEnv.value)} && doubleFrees == old(doubleFrees)
      ensures old(res.cond) == None && old(res.mtx) == None && old(res.msgEnv) == None ==>
        live == old(live) && doubleFrees == old(doubleFrees)
      ensures res.returnValue == old(res.returnValue) && res.returnValueSet == old(res.returnValueSet)
      ensures res.released == old(res.released)
      ensures nextHandle == old(nextHandle)
      ensures loaded == old(loaded) && typeOpened == old(typeOpened) && typeOpenCalls == old(typeOpenCalls)
      ensures outbox == old(outbox) && requests == old(requests)
    {
      if res.cond.Some? {
        Free(res.cond.value);
        res.cond := None;
      }
      if res.mtx.Some? {
        Free(res.mtx.value);
        res.mtx := None;
      }
      if res.msgEnv.Some? {
        Free(res.msgEnv.value);
        res.msgEnv := None;
      }
    }

    /**
     * `enif_release_resource` on a request nobody else refers to: the runtime runs the
     * destructor at once.
     */
    method ReleaseUnshared(res: CallbackNifRes)
      requires Valid()
      modifies this, res
      ensures Valid() && res.released
      ensures res.cond == None && res.mtx == None && res.msgEnv == None
      ensures (live, doubleFrees) == FreeSlot(FreeSlot(FreeSlot((old(live), old(doubleFrees)), old(res.cond)), old(res.mtx)), old(res.msgEnv))
      ensures res.returnValue == old(res.returnValue) && res.returnValueSet == old(res.returnValueSet)
      ensures nextHandle == old(nextHandle)
      ensures loaded == old(loaded) && typeOpened == old(typeOpened) && typeOpenCalls == old(typeOpenCalls)
      ensures outbox == old(outbox) && requests == old(requests) - {res}
    {
      res.released := true;
      requests := requests - {res};
      DestructNifCallRes(res);
    }

    /**
     * `prepare_nif_call` as written. The four flags say whether allocating the resource, the
     * environment, the mutex and the condition variable succeed. Its rollback frees
     * `msg_env` (and `mtx`) without nulling them, so the destructor run by the release frees
     * them a second time.
     */
    method PrepareNifCall(resOk: bool, envOk: bool, mtxOk: bool, condOk: bool) returns (res: CallbackNifRes?)
      requires Valid() && typeOpened
      modifies this
      ensures Valid()
      ensures res != null <==> resOk && envOk && mtxOk && condOk
      ensures res != null ==> fresh(res) && Owns(res) && !res.returnValueSet && res.returnValue == NilAtom && !res.released
      ensures res != null ==>
        live == old(live) + {res.msgEnv.value, res.mtx.value, res.cond.value}
        && res.msgEnv.value !in old(live) && res.mtx.value !in old(live) && res.cond.value !in old(live)
      ensures res == null ==> live == old(live)
      ensures doubleFrees == old(doubleFrees) +
        (if !resOk || !envOk then 0 else if !mtxOk then 1 else if !condOk then 2 else 0)
      ensures loaded == old(loaded) && typeOpened == old(typeOpened) && typeOpenCalls == old(typeOpenCalls)
      ensures outbox == old(outbox)
      ensures res == null ==> requests == old(requests)
      ensures res != null ==> requests == old(requests) + {res}
    {
      if !resOk {
        return null;
      }
      res := new CallbackNifRes();
      requests := requests + {res};
      res.msgEnv := Acquire(envOk);
      if res.msgEnv.None? {
        ReleaseUnshared(res);
        return null;
      }
      var env := res.msgEnv.value;
      res.mtx := Acquire(mtxOk);
      if res.mtx.None? {
        Free(env);
        ReleaseUnshared(res);
        return null;
      }
      var mtx := res.mtx.value;
      res.cond := Acquire(condOk);
      if res.cond.None? {
        Free(env);
        Free(mtx);
        ReleaseUnshared(res);
        return null;
      }
      res.returnValueSet := false;
      res.returnValue := NilAtom;
    }

    /**
     * `prepare_nif_call` with each rolled-back field nulled after it is freed, so the
     * destructor run by the release frees nothing twice.
     */
    method PrepareNifCallFixed(resOk: bool, envOk: bool, mtxOk: bool, condOk: bool) returns (res: CallbackNifRes?)
      requires Valid() && typeOpened
      modifies this
      ensures Valid()
      ensures res != null <==> resOk && envOk && mtxOk && condOk
      ensures res != null ==> fresh(res) && Owns(res) && !res.returnValueSet && res.returnValue == NilAtom && !res.released
      ensures res != null ==>
        live == old(live) + {res.msgEnv.value, res.mtx.value, res.cond.value}
        && res.msgEnv.value !in old(live) && res.mtx.value !in old(live) && res.cond.value !in old(live)
      ensures res == null ==> live == old(live)
      ensures doubleFrees == old(doubleFrees)
      ensures loaded == old(loaded) && typeOpened == old(typeOpened) && typeOpenCalls == old(typeOpenCalls)
      ensures outbox == old(outbox)
      ensures res == null ==> requests == old(requests)
      ensures res != null ==> requests == old(requests) + {res}
    {
      if !resOk {
        return null;
      }
      res := new CallbackNifRes();
      requests := requests + {res};
      res.msgEnv := Acquire(envOk);
      if res.msgEnv.None? {
        ReleaseUnshared(res);
        return null;
      }
      var env := res.msgEnv.value;
      res.mtx := Acquire(mtxOk);
      if res.mtx.None? {
        Free(env);
        res.msgEnv := None;
        ReleaseUnshared(res);
        return null;
      }
      var mtx := res.mtx.value;
      res.cond := Acquire(condOk);
      if res.cond.None? {
        Free(env);
        res.msgEnv := None;
        Free(mtx);
        res.mtx := None;
        ReleaseUnshared(res);
        return null;
      }
      res.returnValueSet := false;
      res.returnValue := NilAtom;
    }

    /**
     * `make_nif_call`. Preparation may fail (the four flags), in which case `enomem` is
     * returned before anything is sent. Otherwise `{Fun, Args, Request}` goes to the
     * evaluator; `replies` are the `nif_call_evaluated` calls that complete before the
     * waiting thread wakes. With none, the thread stays blocked; otherwise it returns the
     * last value stored and releases the request.
     */
    method MakeNifCall(evaluator: Pid, fun: Term, args: Term,
                       resOk: bool, envOk: bool, mtxOk: bool, condOk: bool,
                       replies: seq<Term>) returns (r: CallOutcome)
      requires Valid() && typeOpened
      modifies this
      ensures Valid()
      ensures doubleFrees == old(doubleFrees) +
        (if !resOk || !envOk then 0 else if !mtxOk then 1 else if !condOk then 2 else 0)
      ensures loaded == old(loaded) && typeOpened == old(typeOpened) && typeOpenCalls == old(typeOpenCalls)
      ensures !(resOk && envOk && mtxOk && condOk) ==>
        r == Returned(EnomemAtom) && outbox == old(outbox) && live == old(live) && requests == old(requests)
      ensures resOk && envOk && mtxOk && condOk ==>
        && |outbox| == |old(outbox)| + 1
        && outbox[..|old(outbox)|] == old(outbox)
        && outbox[|old(outbox)|].to == evaluator
        && outbox[|old(outbox)|].fun == fun
        && outbox[|old(outbox)|].args == args
        && fresh(outbox[|old(outbox)|].request)
        && outbox[|old(outbox)|].request.released == (|replies| > 0)
        && r == (if |replies| == 0 then Blocked else Returned(replies[|replies| - 1]))
        && requests == old(requests) + (if |replies| == 0 then {outbox[|old(outbox)|].request} else {})
      ensures resOk && envOk && mtxOk && condOk ==>
        && Owns(outbox[|old(outbox)|].request)
        && live == old(live) + {outbox[|old(outbox)|].request.msgEnv.value,
                                outbox[|old(outbox)|].request.mtx.value,
                                outbox[|old(outbox)|].request.cond.value}
    {
      var res := PrepareNifCall(resOk, envOk, mtxOk, condOk);
      if res == null {
        return Returned(EnomemAtom);
      }
      outbox := outbox + [Message(evaluator, fun, args, res)];
      ghost var env, mtx, cond := res.msgEnv, res.mtx, res.cond;
      for i := 0 to |replies|
        invariant res.returnValueSet <==> i > 0
        invariant i > 0 ==> res.returnValue == replies[i - 1]
        invariant !res.released
        invariant res.msgEnv == env && res.mtx == mtx && res.cond == cond
        modifies res
      {
        var _ := NifCallEvaluated(res, replies[i]);
      }
      if !res.returnValueSet {
        return Blocked;
      }
      r := Returned(res.returnValue);
      res.released := true;
      requests := requests - {res};
    }
  }

  /**
   * `nif_call_evaluated`: `request` is null when the first argument is not a request
   * resource. Otherwise the value is stored and the flag set; a repeated call overwrites.
   */
  method NifCallEvaluated(request: CallbackNifRes?, value: Term) returns (r: Term)
    modifies request
    ensures request == null ==> r == Badarg
    ensures request != null ==> r == OkAtom && request.returnValue == value && request.returnValueSet
    ensures request != null ==>
      && request.msgEnv == old(request.msgEnv) && request.mtx == old(request.mtx)
      && request.cond == old(request.cond) && request.released == old(request.released)
  {
    if request == null {
      return Badarg;
    }
    request.returnValue := value;
    request.returnValueSet := true;
    return OkAtom;
  }

  /**
   * The bridge end to end: loading twice opens the resource type once; a call answered
   * with 3 returns 3; a call answered twice returns the second value; a call whose mutex
   * allocation fails returns `enomem` after releasing the environment twice, and so does
   * a bare preparation failing the same way, while the corrected preparation does not.
   */
  method BridgeScenario(evaluator: Pid, fun: Term)
  {
    var rt := new Runtime();
    var rc1 := rt.NifCallOnload(true);
    var rc2 := rt.NifCallOnload(true);
    assert rc1 == 0 && rc2 == 0 && rt.typeOpenCalls == 1;
    var r := rt.MakeNifCall(evaluator, fun, List([Integer(1), Integer(2)]), true, true, true, true, [Integer(3)]);
    assert r == Returned(Integer(3)) && |rt.outbox| == 1;
    r := rt.MakeNifCall(evaluator, fun, List([]), true, true, true, true, [Integer(4), Integer(5)]);
    assert r == Returned(Integer(5));
    r := rt.MakeNifCall(evaluator, fun, List([]), true, true, false, true, [Integer(6)]);
    assert r == Returned(EnomemAtom) && |rt.outbox| == 2 && rt.doubleFrees == 1;
    var res := rt.PrepareNifCall(true, true, true, false);
    assert res == null && rt.doubleFrees == 3;
    res := rt.PrepareNifCallFixed(true, true, true, false);
    assert res == null && rt.doubleFrees == 3;
  }
}

=== FILE: shapes.dfy ===
/**
 * Shapes: reading an Erlang list of integers into a `std::vector<int>` (the loops of the
 * `zeros`, `ones` and `sum` NIFs), the element count of a shape (`elem_count`) and the
 * size check of `from_blob`.
 */
module Shapes {
  import opened Wrappers
  import opened Terms
  import opened Dtypes

  const TWO_32: int := 0x1_0000_0000
  const TWO_64: int := 0x1_0000_0000_0000_0000

  /**
   * The list-reading loop: `enif_get_list_length` refuses anything but a proper list, then
   * each cell's head must pass `enif_get_int`; any failure makes the NIF return `badarg`
   * (here `None`).
   */
  method ParseIntList(list: Term) returns (r: Option<seq<CInt>>)
    ensures r.Some? <==> list.List? && forall i :: 0 <= i < |list.items| ==> IsCInt(list.items[i])
    ensures r.Some? ==> |r.value| == |list.items|
    ensures r.Some? ==> forall i :: 0 <= i < |r.value| ==> list.items[i] == Integer(r.value[i])
  {
    if !list.List? {
      return None;
    }
    var length := |list.items|;
    var shape: seq<CInt> := [];
    var tail := list.items;
    for i := 0 to length
      invariant tail == list.items[i..]
      invariant |shape| == i
      invariant forall k :: 0 <= k < i ==> list.items[k] == Integer(shape[k])
    {
      var head := tail[0];
      tail := tail[1..];
      if !IsCInt(head) {
        return None;
      }
      shape := shape + [head.value];
    }
    return Some(shape);
  }

  /** The mathematical product of the dimensions, multiplied from the left. */
  function Product(shape: seq<int>): int {
    if |shape| == 0 then 1 else Product(shape[..|shape| - 1]) * shape[|shape| - 1]
  }

  /** Two's-complement wrap-around of a mathematical integer into a C++ `int`. */
  function WrapInt(x: int): CInt {
    (x + 0x8000_0000) % TWO_32 - 0x8000_0000
  }

  /** Conversion of a signed value to `uint64_t`: reduction modulo 2^64. */
  function ToUint64(x: int): (n: nat)
    ensures n < TWO_64
  {
    x % TWO_64
  }

  /**
   * `std::accumulate(shape.begin(), shape.end(), 1, std::multiplies<>{})`: the initial value
   * `1` is an `int`, so every partial product is an `int`; overflow is taken to wrap.
   */
  function AccumulateInt(shape: seq<CInt>): (r: CInt)
    ensures shape == [] ==> r == 1
    ensures (exists i :: 0 <= i < |shape| && shape[i] == 0) ==> r == 0
  {
    if |shape| == 0 then 1 else WrapInt(AccumulateInt(shape[..|shape| - 1]) * shape[|shape| - 1])
  }

  /** `elem_count` as written: the `int` accumulation converted to the `uint64_t` result. */
  function ElemCount(shape: seq<CInt>): (n: nat)
    ensures n < TWO_64
    ensures shape == [] ==> n == 1
  {
    ToUint64(AccumulateInt(shape))
  }

  /**
   * `elem_count` with the accumulation done in `uint64_t`, as its result type intends:
   * each dimension is converted to `uint64_t` and each product reduced modulo 2^64.
   */
  function ElemCount64(shape: seq<CInt>): (n: nat)
    ensures n < TWO_64
    ensures shape == [] ==> n == 1
  {
    if |shape| == 0 then 1 else (ElemCount64(shape[..|shape| - 1]) * ToUint64(shape[|shape| - 1])) % TWO_64
  }

  /** Adding a multiple of 2^32 does not change the wrapped value. */
  lemma WrapIntShift(x: int, k: int)
    ensures WrapInt(x + k * TWO_32) == WrapInt(x)
  {
    var q := (x + 0x8000_0000) / TWO_32;
    var r := (x + 0x8000_0000) % TWO_32;
    assert x + k * TWO_32 + 0x8000_0000 == (q + k) * TWO_32 + r;
  }

  /** Adding a multiple of 2^64 does not change the residue modulo 2^64. */
  lemma Mod64Shift(x: int, k: int)
    ensures (x + k * TWO_64) % TWO_64 == x % TWO_64
  {
    var q := x / TWO_64;
    var r := x % TWO_64;
    assert x + k * TWO_64 == (q + k) * TWO_64 + r;
  }

  /** Wrapping after every step gives the wrapped mathematical product. */
  lemma {:induction false} AccumulateIntIsWrappedProduct(shape: seq<CInt>)
    ensures AccumulateInt(shape) == WrapInt(Product(shape))
  {
    if |shape| > 0 {
      var init, d := shape[..|shape| - 1], shape[|shape| - 1] as int;
      AccumulateIntIsWrappedProduct(init);
      var p := Product(init);
      var k := (p + 0x8000_0000) / TWO_32;
      assert WrapInt(p) == p - k * TWO_32;
      calc {
        AccumulateInt(shape);
        WrapInt(WrapInt(p) * d);
        WrapInt((p - k * TWO_32) * d);
        { assert (p - k * TWO_32) * d == p * d + (-k * d) * TWO_32; }
        WrapInt(p * d + (-k * d) * TWO_32);
        { WrapIntShift(p * d, -k * d); }
        WrapInt(p * d);
      }
    }
  }

  /** Ring identity behind multiplying two residues. */
  lemma ExpandProduct(k: int, x: int, j: int, y: int, m: int)
    ensures (k * m + x) * (j * m + y) == x * y + (k * j * m + k * y + x * j) * m
  {
    calc {
      (k * m + x) * (j * m + y);
      k * m * (j * m + y) + x * (j * m + y);
      k * m * j * m + k * m * y + x * j * m + x * y;
      x * y + (k * j * m + k * y + x * j) * m;
    }
  }

  /** Reducing both factors modulo 2^64 first does not change the product's residue. */
  lemma MulMod64(a: int, b: int)
    ensures ((a % TWO_64) * (b % TWO_64)) % TWO_64 == (a * b) % TWO_64
  {
    var k, x := a / TWO_64, a % TWO_64;
    var j, y := b / TWO_64, b % TWO_64;
    ExpandProduct(k, x, j, y, TWO_64);
    Mod64Shift(x * y, k * j * TWO_64 + k * y + x * j);
  }

  /** Accumulating in `uint64_t` gives the mathematical product modulo 2^64. */
  lemma {:induction false} ElemCount64IsProductMod(shape: seq<CInt>)
    ensures ElemCount64(shape) == Product(shape) % TWO_64
  {
    if |shape| > 0 {
      var init, d := shape[..|shape| - 1], shape[|shape| - 1] as int;
      ElemCount64IsProductMod(init);
      MulMod64(Product(init), d);
    }
  }

  /** A value that already fits in an `int` is left alone by the wrap-around. */
  lemma WrapIntInRange(x: int)
    requires INT_MIN <= x <= INT_MAX
    ensures WrapInt(x) == x
    ensures 0 <= x ==> ToUint64(WrapInt(x)) == x
  {
  }

  /** As written, `elem_count` is the product of the dimensions while that fits in an `int`. */
  lemma ElemCountIsProduct(shape: seq<CInt>)
    requires 0 <= Product(shape) <= INT_MAX
    ensures ElemCount(shape) == Product(shape)
  {
    AccumulateIntIsWrappedProduct(shape);
    WrapIntInRange(Product(shape));
  }

  /** Accumulated in `uint64_t`, the element count is the product whenever that fits in 64 bits. */
  lemma ElemCount64IsProduct(shape: seq<CInt>)
    requires 0 <= Product(shape) < TWO_64
    ensures ElemCount64(shape) == Product(shape)
  {
    ElemCount64IsProductMod(shape);
  }

  /** A shape of 65536 x 65536 elements: the `int` accumulation wraps to an element count of 0. */
  lemma ElemCountOverflow()
    ensures Product([65536, 65536]) == 0x1_0000_0000
    ensures ElemCount([65536, 65536]) == 0
    ensures ElemCount64([65536, 65536]) == 0x1_0000_0000
  {
    var s: seq<CInt> := [65536, 65536];
    var one: seq<CInt> := [65536];
    assert s[..1] == one && one[..0] == [];
    assert Product(one) == 65536 && AccumulateInt(one) == 65536 && ElemCount64(one) == 65536;
    assert WrapInt(65536 * 65536) == 0;
    assert AccumulateInt(s) == 0;
    assert ElemCount64(s) == (65536 * 65536) % TWO_64;
  }

  /** For a positive divisor, `b / s >= e` holds exactly when `b >= e * s`. */
  lemma DivAtLeast(b: nat, s: nat, e: nat)
    requires s > 0
    ensures b / s >= e <==> b >= e * s
  {
    var q, r := b / s, b % s;
    assert b == q * s + r && 0 <= r < s;
    if q >= e {
      assert q * s >= e * s;
    } else {
      assert q + 1 <= e;
      assert (q + 1) * s <= e * s;
    }
  }

  /**
   * The size test of `from_blob` for a given element count: it fails with
   * "Binary size is too small for the requested shape" when `blobSize / itemSize < count`.
   */
  function BlobSizeCheck(blobSize: nat, itemSize: nat, count: nat): (r: Outcome<string>)
    requires itemSize > 0
    ensures r.Fail? <==> blobSize < count * itemSize
    ensures r.Fail? ==> r.error == "Binary size is too small for the requested shape"
  {
    DivAtLeast(blobSize, itemSize, count);
    if blobSize / itemSize < count then Fail("Binary size is too small for the requested shape")
    else Pass
  }

  /** The size check of `from_blob` as written, using the `int`-accumulated element count. */
  function FromBlobCheck(blobSize: nat, itemSize: nat, shape: seq<CInt>): (r: Outcome<string>)
    requires itemSize > 0
    ensures r.Pass? <==> blobSize >= ElemCount(shape) * itemSize
  {
    BlobSizeCheck(blobSize, itemSize, ElemCount(shape))
  }

  /** The size check of `from_blob` with the element count accumulated in `uint64_t`. */
  function FromBlobCheck64(blobSize: nat, itemSize: nat, shape: seq<CInt>): (r: Outcome<string>)
    requires itemSize > 0
    ensures r.Pass? <==> blobSize >= ElemCount64(shape) * itemSize
  {
    BlobSizeCheck(blobSize, itemSize, ElemCount64(shape))
  }

  /**
   * With the corrected count, the check passes exactly when the binary holds every element
   * of the shape, for every shape whose element count fits in 64 bits.
   */
  lemma FromBlobCheck64Sound(blobSize: nat, itemSize: nat, shape: seq<CInt>)
    requires itemSize > 0 && 0 <= Product(shape) < TWO_64
    ensures FromBlobCheck64(blobSize, itemSize, shape).Pass? <==> blobSize >= Product(shape) * itemSize
  {
    ElemCount64IsProduct(shape);
  }

  /**
   * As written, an empty binary passes the check for a 65536 x 65536 shape of 4-byte
   * elements, which needs 16 GiB; the corrected check refuses it.
   */
  lemma FromBlobCheckAcceptsEmptyBinary()
    ensures FromBlobCheck(0, 4, [65536, 65536]).Pass?
    ensures FromBlobCheck64(0, 4, [65536, 65536]).Fail?
  {
    ElemCountOverflow();
  }

  /**
   * The size check of `from_blob` at the level of the type name: `dtype_sizes[name]` is the
   * divisor, which the division needs to be non-zero; that already makes the name a listed one.
   */
  function FromBlob(itemSize: Dtype -> nat, blobSize: nat, typeName: string, shape: seq<CInt>): (r: Outcome<string>)
    requires SizeOfName(itemSize, typeName) > 0
    ensures StringToDtype(typeName).Success?
    ensures r.Pass? <==> blobSize >= ElemCount(shape) * itemSize(StringToDtype(typeName).value)
    ensures r.Fail? ==> r.error == "Binary size is too small for the requested shape"
  {
    BlobSizeCheck(blobSize, SizeOfName(itemSize, typeName), ElemCount(shape))
  }
}

=== FILE: terms.dfy ===
/**
 * The Erlang terms a NIF receives and returns, as far as this model looks into them,
 * and the range of a C++ `int` (32 bits, two's complement).
 */
module Terms {

  const INT_MIN: int := -0x8000_0000
  const INT_MAX: int := 0x7fff_ffff

  /** A value of the C++ type `int`. */
  type CInt = x: int | -0x8000_0000 <= x < 0x8000_0000

  datatype Term =
    | Atom(name: string)
    | Integer(value: int)
    | List(items: seq<Term>)
    | Tuple(items: seq<Term>)
    /** The exception marker that `enif_make_badarg` returns. */
    | Badarg
    /** A term this model does not look into (a binary, a pid, a resource, ...). */
    | Opaque(word: nat)

  /** `enif_get_int` succeeds on exactly these terms. */
  predicate IsCInt(t: Term) {
    t.Integer? && INT_MIN <= t.value <= INT_MAX
  }

  /** The `{error, Reason}` tuple a NIF returns on a reported failure. */
  function ErrorTuple(reason: Term): Term {
    Tuple([Atom("error"), reason])
  }

  /** The `{ok, Value}` tuple a NIF returns on success. */
  function OkTuple(value: Term): Term {
    Tuple([Atom("ok"), value])
  }
}

=== FILE: wrappers.dfy ===
/** Failure-carrying result types shared by the other modules. */
module Wrappers {

  datatype Option<+T> = None | Some(value: T)

  datatype Result<+R, +E> = Success(value: R) | Failure(error: E)

  /** A check that either passes or fails with an error value. */
  datatype Outcome<+E> = Pass | Fail(error: E)
}
